=== FILE: README.md ===
# general-bitbucket-hook-handler, modelled in Dafny

The handler is a small Node.js web service that receives Bitbucket POST hooks.
It works in five steps:

1. It decodes the hook payload.
2. It finds which configured app the pushed repository belongs to.
3. It schedules each tracked branch's shell command once per commit pushed to that branch, or once for every tracked branch when the payload lists no commits.
4. It runs each command. A failed run is tried again while retries remain, so a command gets at most `max(retries, 1)` attempts in all.
5. It reads its settings from upper-cased environment variables, falling back to `config.js` and then to built-in defaults.

This project models that logic as pure functions over immutable data and proves what each step promises:

- **`Payload`**: the decoded JSON payload. A field can be absent, `null`, or present. The payload itself can be `null`, an object, or some other value.
- **`Matcher`**: `process_post`. It rejects bad payloads. For an accepted one it builds the plan, which has one entry per configured app, in configuration order. It also builds the log lines it writes. The `apps` and `branches_to_track` tables are ordered `(key, value)` sequences, which is the order `for…in` visits them.
- **`MatcherCounts`**: counting facts about the plan. These cover commands per commit, duplicates, untracked branches, and how many apps can get commands.
- **`Executor`**:
  - `do_exec`: the retry chain. Each attempt's outcome comes from a supplied oracle. The executor returns the attempts made and the log lines.
  - `run_commands`: the fan-out from a plan to `do_exec` calls. There are two versions, the corrected one and the one as written (see Findings).
- **`Strings`**: ECMAScript `parseInt` with no radix, and the decimal rendering of integers.
- **`Config`**: `env_parse` for boolean, integer and string settings, and the five settings `init` loads.
- **`Server`**: how the request handler maps a request to a status code, and the calls it schedules.
- **`Examples`**: concrete runs on the repository's sample configuration.
- **`Seqs`** and **`Results`**: sequence helpers, and `Option`/`Result`.

## Model

| member | source | states |
|---|---|---|
| `Matcher.ProcessPost` | index.js:61-116 | An undecodable payload is rejected with the parse message. A null or key-less payload is rejected with the empty message. A payload without `repository.slug` is rejected with the repository message, but only when at least one app is configured. In every other case the call resolves with a plan holding each configured app's promised commands, and NO UPDATE is logged for exactly the apps whose list is empty. |
| `Matcher.AppLoop` | index.js:82-111 | The repository check sits inside the app loop. So with apps configured, a missing slug rejects with that message as the only log line, and with no apps it resolves with an empty plan. Otherwise the plan has one entry per app, in order, matching `ExpectedCommands`. |
| `Matcher.AppStep` | index.js:83-110 | One app's list is what `ExpectedCommands` promises. The `update` flag is set exactly when the list is non-empty. NO UPDATE is logged for the app exactly when its list is empty, and never for any other app. |
| `Matcher.BranchLoop` | index.js:92-106 | The tracked branches, in configuration order, append exactly their contributions. `update` becomes true exactly when something was appended. Progress lines never read as NO UPDATE. |
| `Matcher.CommitLoop` | index.js:98-104 | A branch's command is appended once per commit whose `branch` equals the branch, and nothing else is appended. |
| `Matcher.BranchCommandsAsPromised` | index.js:92-106 | Branch-by-branch appends equal the promised list. That list is one command per tracked branch when there are no commits. Otherwise it is each branch's command repeated once per commit on it, branch-major. |
| `Matcher.NoUpdateLogInjective` | index.js:109 | Different apps log different NO UPDATE lines. |
| `Matcher.AppStepLog` | index.js:108-110 | The NO UPDATE line is present exactly when it was appended, and names only this app. |
| `Matcher.ProgressLines` | index.js:91-100 | The FOUND line and both UPDATE lines start with a letter other than the `N` of NO UPDATE. |
| `Matcher.NoProgressLineReadsNoUpdate` | index.js:91-100 | No FOUND or UPDATE line can be mistaken for a NO UPDATE line. |
| `Matcher.AppLoopPlan` | index.js:83-84 | Adding the next app's list keeps the plan in step with the configured apps. |
| `Matcher.AppLoopLog` | index.js:108-110 | Across apps, NO UPDATE is logged for an app exactly when its list in the plan is empty. |
| `MatcherCounts.CommandCountIsTrackedCommitCount` | index.js:97-104 | With commits present and unique branch keys, the app's list has exactly as many entries as there are commits on tracked branches. |
| `MatcherCounts.CommandMultiplicity` | index.js:98-103 | A tracked branch's command, if no other branch shares it, appears exactly as many times as there are commits on that branch. There is no deduplication. |
| `MatcherCounts.AbsentCommand` | index.js:92-104 | A command that no tracked branch names is never scheduled, whether or not the payload has commits. |
| `MatcherCounts.LastBranchCount` | index.js:98-103 | A command's count in the list is its count before the last tracked branch, plus the number of commits on that branch if it is that branch's command. |
| `MatcherCounts.TrackedCountAddBranch` | index.js:92-104 | With unique branch keys, adding a branch adds exactly the commits on that branch to the tracked count. |
| `MatcherCounts.CountOnConcat` | index.js:98-99 | Counting commits on a branch is additive over concatenated commit lists. |
| `MatcherCounts.NothingTrackedWithoutBranches` | index.js:92 | With no tracked branches, no commit is tracked. |
| `MatcherCounts.UntrackedCommitIgnored` | index.js:97-104 | Adding a commit on an untracked branch anywhere in a non-empty `commits` array changes no app's list. |
| `MatcherCounts.UnknownSlugSchedulesNothing` | index.js:90 | A payload whose slug is no configured app gets an empty list for every app. |
| `MatcherCounts.AtMostOneAppScheduled` | index.js:90 | With distinct app names, at most one app gets commands. |
| `Executor.DoExec` | index.js:118-135 | Starting from `retry_left = r`, the chain makes between 1 and `max(r,1)` attempts. Attempt `j` runs with `r - j` retries left. Every attempt but the last failed. The last attempt either succeeded or used up the budget. |
| `Executor.AlwaysFailingUsesBudget` | index.js:120-130 | A command that always fails makes exactly `max(r,1)` attempts, and all of them fail. |
| `Executor.SuccessStopsRetrying` | index.js:128-133 | A first success on attempt `s` ends the chain: there are exactly `s+1` attempts and the last one succeeded. |
| `Executor.FailureLogsRetriesLeft` | index.js:121 | The j-th failure (counting from 0) logs an UPDATE FAILED header with `r - (j+1)` retries left. |
| `Executor.HeaderAfterFailures` | index.js:121-127 | In a run of failures, each failure's log block starts at line `5j` with its header. |
| `Executor.FailedBlocksLength` | index.js:121-127 | Blocks of five lines each, like those a failure logs, flatten to five lines per block. |
| `Executor.FailedPrefixLength` | index.js:121-127 | The log blocks of the first `j` attempts, all of them failures, take up exactly `5j` lines. |
| `Executor.FanOut` | index.js:138-144 | Corrected fan-out. There is one call per command in the plan, in plan order. Each call carries its own command, its app and `retries`. |
| `Executor.RunCommands` | index.js:138-144 | The nested loops issue exactly the calls of `FanOut`. |
| `Executor.FanOutAsWritten` | index.js:139-142 | Fan-out as written: an app with n commands gets n calls, each carrying the app and `retries`. |
| `Executor.RunCommandsAsWritten` | index.js:138-144 | The loops as written issue exactly the calls of `FanOutAsWritten`. |
| `Executor.AsWrittenPassesWholeList` | index.js:141 | Every call as written receives an entire command list: that of the plan entry named by the call's app, which with unique app names is the only entry that can own it. |
| `Executor.AsWrittenAgreesOnSingleCommands` | index.js:141 | When no app has more than one command, each as-written call's list, in its string form, is the corrected call's command. The two fan-outs then agree wherever `exec` turns an array into its string form (see Left out). |
| `Executor.CorrectedCallsWithinAsWritten` | index.js:138-144 | The as-written and corrected fan-outs issue the same number of calls. Call for call they have the same app and retries, and the corrected command is a member of the list the as-written call passes. |
| `Executor.AsWrittenRunsJoinedList` | index.js:141 | A concrete plan with two commands shows the difference. As written, the joined list "a,b" is passed twice. Corrected, "a" and then "b" are passed. |
| `Strings.ParseIntOfIntToString` | index.js:49 | `parseInt` of an integer's decimal text gives back the integer. |
| `Strings.ParseIntDigitsThenTail` | index.js:45 | `parseInt` reads the longest leading decimal integer and ignores a tail that starts with no digit (and no `x` after a lone `0`). So "12abc" reads 12. |
| `Strings.NatToStringValue` | index.js:49 | The decimal digits of `n` denote `n`. |
| `Strings.DigitRunOfDigits` | index.js:45 | The digit scan stops exactly at the first non-digit. |
| `Config.EqualsOwnParseIntIffInteger` | index.js:49-51 | A setting passes the `x === parseInt(x)` check exactly when it is an integer number. Fractions, NaN, strings, booleans, null and undefined all fail it. |
| `Config.ResolveInteger` | index.js:43-51 | An env value wins and is read by `parseInt`: a number is accepted and NaN is rejected. Without one, the config value (or else the default) must be an integer number, otherwise the call fails with the setting's message. |
| `Config.EnvParse` | index.js:31-59 | Only integer settings can fail, and they fail with their own "not an integer" message. A resolved integer setting is always an integer number. |
| `Config.BooleanIgnoresUnknownText` | index.js:36-41 | A boolean env value other than "true", "1", "false" or "0" counts the same as no env value. |
| `Config.EnvironmentFirst` | index.js:36-39 | An env value that applies decides the setting, whatever the config file and the default say. |
| `Config.ConfigFileBeforeDefault` | index.js:40-56 | Without an env value, a defined config-file value makes the default irrelevant. |
| `Config.LoadSettings` | index.js:186-195 | Loading the five settings succeeds exactly when the three integer settings resolve. Each field equals its `env_parse` result. A failure reports the message of the first integer setting that fails, in the order retries, command_timeout, port, because `init` stops at the first throw. |
| `Server.Receive` | index.js:148-157 | The body is the concatenation of the chunks. Receiving fails (413) exactly when the accumulated body grows past 1e6 characters. |
| `Server.Handle` | index.js:146-178 | A verb other than POST gives 405 and nothing else. An oversized body gives 413. Otherwise the status is 200 "OK" when `process_post` resolves, and 500 with its rejection string and no calls when it rejects. A 200 carries the corrected fan-out of the plan. Call for call, it lines up with the as-written fan-out of line 141: same length, same app, and each corrected command is one of the list the as-written call receives. |
| `Server.AcceptedRunsPlan` | index.js:161-165 | An accepted request decoded its body, and every call it scheduled is for the payload's app with `retries`. |
| `Server.ScheduledAppsMatchSlug` | index.js:90-101 | Every command in a plan belongs to the app named by the payload's slug. |
| `Examples.PushToMaster` | config.example.js:7-29 | On the sample configuration, one commit to `master` of `yourapp` schedules only its master command, and nothing for the other app. |
| `Examples.NoDeduplication` | index.js:98-103 | Three commits on `master` schedule its command three times. |
| `Examples.EmptyCommitsTriggerAll` | index.js:93-96 | An empty `commits` array schedules every tracked branch's command. |
| `Examples.GetIsRefused` | index.js:174-177 | A GET request gets 405. |
| `Examples.EmptyBodyIsRejected` | index.js:67-73 | An empty POST body that the decoder cannot read gets 500 with the parse-failure message and schedules nothing. |
| `Examples.SampleTimeout` | config.example.js:32 | The sample file's `command_timeout` of 120000 is used when no env value is set. |
| `Examples.BuiltInDefaults` | index.js:187-191 | With no env values and an empty config, the settings are the defaults: debug off, the default log file, retries 5, timeout 120 and port 38889. |
| `Examples.RetriesFromEnvironment` | index.js:44-51 | `RETRIES=12abc` yields 12, even though the sample file sets 5. |
| `Examples.RetriesWithoutDigits` | index.js:44-51 | `RETRIES=abc` fails with the retries message. |
| `Examples.TwelveThenLetters` | index.js:45 | `parseInt("12abc")` is 12. |
| `Examples.NoDigits` | index.js:45 | `parseInt("abc")` is NaN. |
| `Examples.UpperRetries` | index.js:44 | The setting name "retries" upper-cases to the env key "RETRIES". |
| `Examples.NonIntegerFileValues` | index.js:46-51 | A fractional `port` or the string "8080" in the config file fails with the port's message. |
| `Examples.UnknownBooleanText` | index.js:36-42 | `DEBUG=yes` leaves the config file's true in place, while `DEBUG=0` overrides it with false. |
| `Examples.FiveFailures` | index.js:118-130 | With `retries` 5, a command that always fails is attempted five times. The last attempt starts with 1 retry left, so it logs 0 and stops. |

## Left out

- The log sink (index.js:11-29): console versus file, the syslog date prefix and `fs.appendFile`. A log call is modelled as appending its message text to a sequence.
- The `newline` flag on the stdout and stderr lines (index.js:126-127). It only affects file formatting, which is left out.
- `querystring.parse` and `JSON.parse` (index.js:68). The decoder is a parameter returning either a parse error or a decoded payload.
- `child_process.exec` and its wall-clock `timeout` (index.js:119). The outcome of each attempt comes from a supplied oracle, and a timeout is one kind of failure.
- How `exec` treats a non-string command. The as-written fan-out passes an array as the command (index.js:141). The model assumes `exec` runs an array as its comma-joined string form, as older Node releases do. Current releases throw a TypeError for a non-string command. That throw happens inside the success handler (index.js:162-165) before `res.end("OK")`, so the client gets no 200. That runtime behaviour is not modelled.
- Server.Handle: a 200 carries the corrected calls, one command per call, not the whole-list calls line 141 makes. Its contract relates the two call for call: same count, same app, and each corrected command is in the list the as-written call passes. `Executor.FanOutAsWritten` gives the as-written calls themselves.
- Q promises and the fire-and-forget concurrency of command runs (index.js:62, 161-171). Calls are modelled in the order they are issued, and their executions are not interleaved.
- `req.connection.destroy()` and the streaming of request events (index.js:149-158). The body arrives as a sequence of chunks.
- `init`'s callback and `process.exit` (index.js:180-205), which are process startup. The settings it loads are modelled by `Config.LoadSettings`.
- The `variable_name === undefined` guard in `env_parse` (index.js:32-34). Every call in the program supplies a name.
- `Strings.ToUpper` upper-cases ASCII letters only. The setting names are ASCII.
- Parsed numbers are unbounded integers. Values past 2^53, where JavaScript numbers lose precision, and exponent text are not modelled.
- String lengths count characters, not UTF-16 code units, in the 1e6 body limit.
- A `null` element inside `commits` is not modelled: reading its `branch` throws (index.js:99). A non-array `commits` is not modelled either. A non-empty string, a number, a boolean, or an object without `length` schedules nothing and logs NO UPDATE. An empty string, or an object whose `length` is loosely 0, triggers every tracked branch, as empty commits do (index.js:93-96). An object with a positive `length` is walked like an array by the loop at index.js:98, and a missing element throws at index.js:99.
- Loose `==` between a non-string slug or branch and a string is not modelled. Slug and branch are strings, absent or `null`.
- Setting resolution follows the code, not the comment in `init` (index.js:182-185). The comment says a value is used when it is "not null", but the code tests for `undefined`. So a `null` in the configuration file is kept, and an integer setting that is `null` fails the integer check.
- The default for `command_timeout`: the sample configuration sets 120000 and marks it as milliseconds (config.example.js:31-32), but `init` passes 120 (index.js:190). The model follows the code.
- The implicit global `index` shared by the loops in `process_post` and `run_commands`. It has no effect in sequential execution.

## Findings

| source | as written | input that shows it | evidently intended | confidence | as-written member | corrected member |
|---|---|---|---|---|---|---|
| index.js:141 | `do_exec` is passed the app's whole command list, once per element. On Node releases whose `exec` turns an array into its string form, the shell gets the comma-joined list each time. On current releases `exec` throws a TypeError instead and no 200 is sent. | a plan in which `yourapp` has the commands "a" and "b": as written, `do_exec(["a","b"], …)` is called twice, which runs "a,b" twice or throws; intended, "a" then "b" | pass the element at `index`, so each command runs once | not executed | `Executor.AsWrittenRunsJoinedList` | `Executor.RunCommands` |

=== FILE: config.dfy ===
/** Start-up configuration: `env_parse` resolves each setting from the
    environment (upper-cased name), then the configuration file, then a
    built-in default, and checks that integer settings are integers. */
module Config {
  import opened Results
  import opened Strings

  /** A value held by the configuration object, as JavaScript sees it.
      `Frac` is a finite number that is not an integer and `NaN` is what
      `parseInt` gives for text without digits. */
  datatype ConfigValue = Int(n: int) | Frac | NaN | Str(s: string) | Bool(b: bool) | Null | Undefined

  /** The `variable_type` option: "boolean", "integer" or anything else. */
  datatype VarType = BooleanVar | IntegerVar | StringVar

  datatype EnvOption = EnvOption(name: string, varType: VarType, default: ConfigValue)

  /** Process environment and the scalar keys of the configuration file. */
  type Env = map<string, string>
  type ConfigFile = map<string, ConfigValue>

  /** A missing key of the configuration object reads as `undefined`. */
  function Lookup(cfg: ConfigFile, name: string): ConfigValue
  {
    if name in cfg then cfg[name] else Undefined
  }

  /** The number `parseInt` yields, `NaN` when there are no digits. */
  function NumberOf(p: Option<int>): ConfigValue
  {
    match p
    case None => NaN
    case Some(n) => Int(n)
  }

  /** Whether `v === parseInt(v)`: `parseInt` reads the text of `v` and
      yields an integer or `NaN`, so only an integer can equal it, and only
      when reading its own decimal text gives it back. A fraction reads as
      an integer or `NaN`, `NaN` equals nothing, and a string, boolean,
      `null` or `undefined` is never strictly equal to a number. */
  predicate EqualsOwnParseInt(v: ConfigValue)
  {
    match v
    case Int(n) => NumberOf(ParseInt(IntToString(n))) == v
    case _ => false
  }

  /** Exactly the integers pass the integer check. */
  lemma EqualsOwnParseIntIffInteger(v: ConfigValue)
    ensures EqualsOwnParseInt(v) <==> v.Int?
  {
    if v.Int? {
      ParseIntOfIntToString(v.n);
    }
  }

  function InvalidIntegerMessage(name: string): string
  {
    name + " variable (either in ENV or in config.js) is set to an invalid value (not an integer)"
  }

  predicate IsTrueText(t: string) { t == "true" || t == "1" }

  predicate IsFalseText(t: string) { t == "false" || t == "0" }

  /** A boolean setting: "true" or "1" in the environment sets it, "false"
      or "0" clears it, any other environment text is ignored; then the
      file's value, then the default. Nothing is validated. */
  function ResolveBoolean(key: string, env: Env, current: ConfigValue, default: ConfigValue): (r: ConfigValue)
    ensures key in env && IsTrueText(env[key]) ==> r == Bool(true)
    ensures key in env && IsFalseText(env[key]) ==> r == Bool(false)
    ensures (key !in env || (!IsTrueText(env[key]) && !IsFalseText(env[key]))) ==>
      r == (if current == Undefined then default else current)
  {
    if key in env && IsTrueText(env[key]) then Bool(true)
    else if key in env && IsFalseText(env[key]) then Bool(false)
    else if current == Undefined then default
    else current
  }

  /** An integer setting: the environment text read by `parseInt`, else the
      file's value, else the default; the result must equal its own
      `parseInt`, which only integers do. */
  function ResolveInteger(name: string, key: string, env: Env, current: ConfigValue, default: ConfigValue): (r: Result<int>)
    ensures key in env ==> r == (match ParseInt(env[key])
                                 case Some(n) => Ok(n)
                                 case None => Err(InvalidIntegerMessage(name)))
    ensures key !in env ==>
      var v := if current == Undefined then default else current;
      r == (if v.Int? then Ok(v.n) else Err(InvalidIntegerMessage(name)))
  {
    var v :=
      if key in env then NumberOf(ParseInt(env[key]))
      else if current == Undefined then default
      else current;
    EqualsOwnParseIntIffInteger(v);
    if !EqualsOwnParseInt(v) then Err(InvalidIntegerMessage(name)) else Ok(v.n)
  }

  /** Any other setting: the environment text, else the file's value, else the default. */
  function ResolveString(key: string, env: Env, current: ConfigValue, default: ConfigValue): (r: ConfigValue)
    ensures key in env ==> r == Str(env[key])
    ensures key !in env ==> r == (if current == Undefined then default else current)
  {
    if key in env then Str(env[key])
    else if current == Undefined then default
    else current
  }

  /** `env_parse`: the resolved value of one setting, or the error it throws. */
  function EnvParse(opt: EnvOption, env: Env, cfg: ConfigFile): (r: Result<ConfigValue>)
    ensures r.Err? ==> opt.varType == IntegerVar && r.reason == InvalidIntegerMessage(opt.name)
    ensures r.Ok? && opt.varType == IntegerVar ==> r.value.Int?
  {
    var key := ToUpper(opt.name);
    var current := Lookup(cfg, opt.name);
    match opt.varType
    case BooleanVar => Ok(ResolveBoolean(key, env, current, opt.default))
    case IntegerVar =>
      (match ResolveInteger(opt.name, key, env, current, opt.default)
       case Ok(n) => Ok(Int(n))
       case Err(e) => Err(e))
    case StringVar => Ok(ResolveString(key, env, current, opt.default))
  }

  /** A boolean setting ignores an environment value it does not recognise:
      the result is the one it would have without that variable. */
  lemma BooleanIgnoresUnknownText(opt: EnvOption, env: Env, cfg: ConfigFile)
    requires opt.varType == BooleanVar
    requires ToUpper(opt.name) in env
    requires !IsTrueText(env[ToUpper(opt.name)]) && !IsFalseText(env[ToUpper(opt.name)])
    ensures EnvParse(opt, env, cfg) == EnvParse(opt, env - {ToUpper(opt.name)}, cfg)
  {
  }

  /** Precedence, first tier: when the environment decides a setting, the
      configuration file and the default play no part. */
  lemma EnvironmentFirst(opt: EnvOption, env: Env, cfg: ConfigFile, cfg': ConfigFile, default': ConfigValue)
    requires ToUpper(opt.name) in env
    requires opt.varType == BooleanVar ==>
      IsTrueText(env[ToUpper(opt.name)]) || IsFalseText(env[ToUpper(opt.name)])
    ensures EnvParse(opt, env, cfg) == EnvParse(opt.(default := default'), env, cfg')
  {
  }

  /** Precedence, second tier: without an environment value, a value in the
      configuration file makes the default irrelevant. */
  lemma ConfigFileBeforeDefault(opt: EnvOption, env: Env, cfg: ConfigFile, default': ConfigValue)
    requires ToUpper(opt.name) !in env
    requires Lookup(cfg, opt.name) != Undefined
    ensures EnvParse(opt, env, cfg) == EnvParse(opt.(default := default'), env, cfg)
  {
  }

  /** The settings `init` resolves, in the order it resolves them. */
  const DebugOption := EnvOption("debug", BooleanVar, Bool(false))
  const LogfileOption := EnvOption("logfile", StringVar, Str("./general-bitbucket-hook-handler.log"))
  const RetriesOption := EnvOption("retries", IntegerVar, Int(5))
  const TimeoutOption := EnvOption("command_timeout", IntegerVar, Int(120))
  const PortOption := EnvOption("port", IntegerVar, Int(38889))

  datatype Settings = Settings(debug: ConfigValue, logfile: ConfigValue, retries: int, commandTimeout: int, port: int)

  /** The five `env_parse` calls of `init`, in order; the first one that
      throws stops it, so its message is the one reported. */
  function LoadSettings(env: Env, cfg: ConfigFile): (r: Result<Settings>)
    ensures r.Ok? <==>
      && EnvParse(RetriesOption, env, cfg).Ok?
      && EnvParse(TimeoutOption, env, cfg).Ok?
      && EnvParse(PortOption, env, cfg).Ok?
    ensures r.Ok? ==>
      && Ok(r.value.debug) == EnvParse(DebugOption, env, cfg)
      && Ok(r.value.logfile) == EnvParse(LogfileOption, env, cfg)
      && Ok(Int(r.value.retries)) == EnvParse(RetriesOption, env, cfg)
      && Ok(Int(r.value.commandTimeout)) == EnvParse(TimeoutOption, env, cfg)
      && Ok(Int(r.value.port)) == EnvParse(PortOption, env, cfg)
    ensures r.Err? ==>
      r.reason ==
      (if EnvParse(RetriesOption, env, cfg).Err? then InvalidIntegerMessage("retries")
       else if EnvParse(TimeoutOption, env, cfg).Err? then InvalidIntegerMessage("command_timeout")
       else InvalidIntegerMessage("port"))
  {
    Collect(EnvParse(DebugOption, env, cfg), EnvParse(LogfileOption, env, cfg),
            EnvParse(RetriesOption, env, cfg), EnvParse(TimeoutOption, env, cfg), EnvParse(PortOption, env, cfg))
  }

  /** The settings from the five results, or the first failure among the
      three integer ones. */
  function Collect(debug: Result<ConfigValue>, logfile: Result<ConfigValue>,
                   retries: Result<ConfigValue>, timeout: Result<ConfigValue>, port: Result<ConfigValue>): (r: Result<Settings>)
    requires debug.Ok? && logfile.Ok?
    requires retries.Ok? ==> retries.value.Int?
    requires timeout.Ok? ==> timeout.value.Int?
    requires port.Ok? ==> port.value.Int?
    ensures r.Ok? <==> retries.Ok? && timeout.Ok? && port.Ok?
    ensures r.Ok? ==>
      && Ok(r.value.debug) == debug && Ok(r.value.logfile) == logfile
      && Ok(Int(r.value.retries)) == retries && Ok(Int(r.value.commandTimeout)) == timeout
      && Ok(Int(r.value.port)) == port
    ensures r.Err? ==>
      r.reason == (if retries.Err? then retries.reason else if timeout.Err? then timeout.reason else port.reason)
  {
    if retries.Err? then Err(retries.reason)
    else if timeout.Err? then Err(timeout.reason)
    else if port.Err? then Err(port.reason)
    else Ok(Settings(debug.value, logfile.value, retries.value.n, timeout.value.n, port.value.n))
  }
}

=== FILE: examples.dfy ===
/** Concrete runs of the model on the sample configuration of the
    repository: two apps, two tracked branches each. */
module Examples {
  import opened Results
  import opened Seqs
  import opened Strings
  import opened Config
  import opened Payload
  import opened Matcher
  import opened Executor
  import opened Server

  const YourappMaster := "cd /var/yourapp; git fetch; git checkout -f; <some_restart_command>"
  const YourappTest := "cd /var/yourapp_test_install; git fetch; git checkout -f; <some_restart_command>"
  const OtherMaster := "cd /var/your-other-app; git fetch; git checkout -f; <some_restart_command>"
  const OtherTest := "cd /var/your-other-app-test-install; git fetch; git checkout -f; <some_restart_command>"

  const SampleApps: Apps := [
    ("yourapp", [("master", YourappMaster), ("test", YourappTest)]),
    ("your-other-app", [("master", OtherMaster), ("test-branch", OtherTest)])
  ]

  const SampleFile: ConfigFile := map[
    "retries" := Int(5), "command_timeout" := Int(120000),
    "logfile" := Str("./general-bitbucket-hook-handler.log"), "debug" := Bool(false), "port" := Int(38889)
  ]

  const OnMaster := Commit(Present("master"))

  function PushTo(slug: string, commits: seq<Commit>): Post
  {
    Object(Present(Repository(Present(slug))), Present(commits), 0)
  }

  /** A push of one commit to `master` of `yourapp` schedules its master command only. */
  lemma PushToMaster()
    ensures ProcessPost(Parsed(PushTo("yourapp", [OnMaster])), SampleApps).outcome
      == Ok([("yourapp", [YourappMaster]), ("your-other-app", [])])
  {
    var post := PushTo("yourapp", [OnMaster]);
    var r := ProcessPost(Parsed(post), SampleApps);
    var branches := SampleApps[0].1;
    assert [OnMaster][..0] == [];
    assert CountOn(Commits(post), "master") == 1;
    assert CountOn(Commits(post), "test") == 0;
    var parts := seq(2, i requires 0 <= i < 2 => Repeat(branches[i].1, CountOn(Commits(post), branches[i].0)));
    assert parts[0] == [YourappMaster];
    assert parts[1] == [];
    assert parts == [[YourappMaster], []];
    TwoParts(parts);
    assert !NullOrEmpty(post) && !RepositoryMissing(post);
    assert r.outcome.Ok?;
    assert ExpectedCommands("yourapp", branches, post) == [YourappMaster];
    assert ExpectedCommands("your-other-app", SampleApps[1].1, post) == [];
    assert r.outcome.value[0] == ("yourapp", [YourappMaster]);
    assert r.outcome.value[1] == ("your-other-app", []);
    assert r.outcome.value == [("yourapp", [YourappMaster]), ("your-other-app", [])];
  }

  /** Three commits on `master` schedule its command three times. */
  lemma NoDeduplication()
    ensures ExpectedCommands("yourapp", SampleApps[0].1, PushTo("yourapp", [OnMaster, OnMaster, OnMaster]))
      == [YourappMaster, YourappMaster, YourappMaster]
  {
    var cs := [OnMaster, OnMaster, OnMaster];
    var post := PushTo("yourapp", cs);
    var branches := SampleApps[0].1;
    assert cs[..2] == [OnMaster, OnMaster] && cs[..2][..1] == [OnMaster] && cs[..2][..1][..0] == [];
    assert CountOn(cs[..2][..1], "master") == 1 && CountOn(cs[..2][..1], "test") == 0;
    assert CountOn(cs[..2], "master") == 2 && CountOn(cs[..2], "test") == 0;
    assert CountOn(cs, "master") == 3;
    assert CountOn(cs, "test") == 0;
    var parts := seq(2, i requires 0 <= i < 2 => Repeat(branches[i].1, CountOn(Commits(post), branches[i].0)));
    assert parts[0] == [YourappMaster, YourappMaster, YourappMaster];
    assert parts[1] == [];
    assert parts == [parts[0], []];
    TwoParts(parts);
  }

  /** An empty `commits` array triggers every tracked branch of the app. */
  lemma EmptyCommitsTriggerAll()
    ensures ExpectedCommands("yourapp", SampleApps[0].1, PushTo("yourapp", []))
      == [YourappMaster, YourappTest]
  {
    var branches := SampleApps[0].1;
    var post := PushTo("yourapp", []);
    assert Slug(post) == Present("yourapp");
    assert CommitsEmpty(post);
    assert |branches| == 2;
    assert seq(2, i requires 0 <= i < 2 => branches[i].1) == [YourappMaster, YourappTest];
    assert ExpectedCommands("yourapp", branches, post) == [YourappMaster, YourappTest];
  }

  /** A request that is not a POST gets 405. */
  lemma GetIsRefused(decode: string -> Decoded)
    ensures Handle("GET", [], decode, SampleApps, 5).status == 405
  {
  }

  /** An empty body cannot be decoded, so the request is rejected with 500. */
  lemma EmptyBodyIsRejected(decode: string -> Decoded)
    requires decode("").ParseFailure?
    ensures Handle("POST", [], decode, SampleApps, 5) == Response(500, ParseFailureReason, [], [ParseFailureLog(decode("").error)])
  {
  }

  /** The sample configuration file's timeout is 120000 ms. */
  lemma SampleTimeout()
    ensures EnvParse(TimeoutOption, map[], SampleFile) == Ok(Int(120000))
  {
    assert Lookup(SampleFile, "command_timeout") == Int(120000);
  }

  /** Without a configuration file value, the built-in defaults apply,
      including a 120 ms command timeout. */
  lemma BuiltInDefaults()
    ensures LoadSettings(map[], map[])
      == Ok(Settings(Bool(false), Str("./general-bitbucket-hook-handler.log"), 5, 120, 38889))
  {
  }

  /** `RETRIES=12abc` reads as 12, whatever the configuration file says. */
  lemma RetriesFromEnvironment()
    ensures EnvParse(RetriesOption, map["RETRIES" := "12abc"], SampleFile) == Ok(Int(12))
  {
    UpperRetries();
    TwelveThenLetters();
  }

  /** `RETRIES=abc` has no digits, so start-up stops. */
  lemma RetriesWithoutDigits()
    ensures EnvParse(RetriesOption, map["RETRIES" := "abc"], SampleFile) == Err(InvalidIntegerMessage("retries"))
  {
    UpperRetries();
    NoDigits();
  }

  /** `parseInt("12abc")` is 12. */
  lemma TwelveThenLetters()
    ensures ParseInt("12abc") == Some(12)
  {
    ParseIntDigitsThenTail(12, "abc");
    assert NatToString(1) == "1";
    assert NatToString(12) == "12";
    assert IntToString(12) + "abc" == "12abc";
  }

  /** `parseInt("abc")` is `NaN`. */
  lemma NoDigits()
    ensures ParseInt("abc") == None
  {
  }

  /** A fractional or textual value in the configuration file is not an integer. */
  lemma NonIntegerFileValues()
    ensures EnvParse(PortOption, map[], map["port" := Frac]) == Err(InvalidIntegerMessage("port"))
    ensures EnvParse(PortOption, map[], map["port" := Str("8080")]) == Err(InvalidIntegerMessage("port"))
  {
  }

  /** `DEBUG=yes` is not a recognised boolean, so the file's value stays. */
  lemma UnknownBooleanText()
    ensures EnvParse(DebugOption, map["DEBUG" := "yes"], map["debug" := Bool(true)]) == Ok(Bool(true))
    ensures EnvParse(DebugOption, map["DEBUG" := "0"], map["debug" := Bool(true)]) == Ok(Bool(false))
  {
    assert ToUpper("debug") == "DEBUG";
  }

  lemma UpperRetries()
    ensures ToUpper("retries") == "RETRIES"
  {
  }

  /** With 5 retries and a command that always fails, 5 attempts are made,
      logging 4, 3, 2, 1 and 0 retries left. */
  lemma FiveFailures(outcome: nat -> ExecResult)
    requires forall j :: outcome(j) == Failed(Some(1), "", "")
    ensures |DoExec(5, outcome, 0)| == 5
    ensures DoExec(5, outcome, 0)[4] == Attempt(1, Failed(Some(1), "", ""))
  {
    AlwaysFailingUsesBudget(5, outcome);
  }
}

=== FILE: executor.dfy ===
/** `do_exec` and `run_commands`: running the scheduled commands with a
    bounded number of retries. The subprocess and its timeout are replaced
    by a supplied outcome for each attempt. */
module Executor {
  import opened Results
  import opened Seqs
  import opened Strings
  import opened Matcher

  /** How one run of a command ended: success, or failure (a non-zero exit,
      a signal, or the timeout) with the exit code (`null` when the process
      was killed), standard output and standard error. */
  datatype ExecResult = Succeeded | Failed(exitCode: Option<int>, stdout: string, stderr: string)

  /** One attempt: the `retry_left` it was made with and how it ended. */
  datatype Attempt = Attempt(retryLeft: int, result: ExecResult)

  /** Number of attempts a retry budget allows: the first attempt always
      happens, and a failure retries only while `retry_left - 1 > 0`. */
  function Budget(retries: int): nat
  {
    if retries > 1 then retries else 1
  }

  /** `do_exec(command, app_name, retry_left)`: the attempts it makes, where
      `outcome(k)` is how attempt `k` (counted from 0) ends. Attempt `j`
      runs with `retry_left - j`; every attempt but the last failed; the
      chain stops at the first success or when the budget is used up. */
  function DoExec(retryLeft: int, outcome: nat -> ExecResult, k: nat): (trace: seq<Attempt>)
    ensures 1 <= |trace| <= Budget(retryLeft)
    ensures forall j :: 0 <= j < |trace| ==> trace[j] == Attempt(retryLeft - j, outcome(k + j))
    ensures forall j :: 0 <= j < |trace| - 1 ==> trace[j].result.Failed?
    ensures trace[|trace| - 1].result.Succeeded? || |trace| == Budget(retryLeft)
    decreases Budget(retryLeft)
  {
    var here := Attempt(retryLeft, outcome(k));
    if here.result.Failed? && retryLeft - 1 > 0 then [here] + DoExec(retryLeft - 1, outcome, k + 1)
    else [here]
  }

  /** A command that fails every time is tried exactly `max(retries, 1)` times. */
  lemma AlwaysFailingUsesBudget(retries: int, outcome: nat -> ExecResult)
    requires forall j :: 0 <= j < Budget(retries) ==> outcome(j).Failed?
    ensures |DoExec(retries, outcome, 0)| == Budget(retries)
    ensures forall j :: 0 <= j < Budget(retries) ==> DoExec(retries, outcome, 0)[j].result.Failed?
  {
    var t := DoExec(retries, outcome, 0);
    assert t[|t| - 1].result == outcome(|t| - 1);
  }

  /** A command that first succeeds on attempt `s` (counted from 0) within
      the budget is tried `s + 1` times: `s` failures, then the success. */
  lemma SuccessStopsRetrying(retries: int, outcome: nat -> ExecResult, s: nat)
    requires s < Budget(retries) && outcome(s).Succeeded?
    requires forall j :: 0 <= j < s ==> outcome(j).Failed?
    ensures |DoExec(retries, outcome, 0)| == s + 1
    ensures DoExec(retries, outcome, 0)[s].result.Succeeded?
  {
    var t := DoExec(retries, outcome, 0);
    assert t[|t| - 1].result == outcome(|t| - 1);
    assert s < |t| ==> t[s].result == outcome(s);
  }

  function ExitCodeText(code: Option<int>): string
  {
    match code
    case None => "null"
    case Some(n) => IntToString(n)
  }

  function FailedHeader(retriesLeft: int, app: string): string
  {
    "UPDATE FAILED (retries left: " + IntToString(retriesLeft) + ") for " + app + ":"
  }

  /** The lines one attempt logs (text only; the trailing-newline flag is a
      file-format detail). */
  function AttemptLog(command: string, app: string, a: Attempt): seq<string>
  {
    match a.result
    case Succeeded => ["UPDATE SUCCESS for " + app + "!"]
    case Failed(code, out, err) =>
      [ FailedHeader(a.retryLeft - 1, app),
        "\t command: '" + command + "'",
        "\t\t exit code: " + ExitCodeText(code),
        "\t\t stdout: " + out,
        "\t\t stderr: " + err ]
  }

  /** Everything a retry chain logs, attempt after attempt. */
  function ExecLog(command: string, app: string, trace: seq<Attempt>): seq<string>
  {
    Concat(seq(|trace|, j requires 0 <= j < |trace| => AttemptLog(command, app, trace[j])))
  }

  /** The failed attempt `j` (counted from 0) of `do_exec(command, app,
      retries)` logs its header as line `5 j`, reporting `retries - (j + 1)`
      retries left: attempt K (counted from 1) reports `retries - K`. */
  lemma FailureLogsRetriesLeft(command: string, app: string, retries: int, outcome: nat -> ExecResult, j: nat)
    requires j < |DoExec(retries, outcome, 0)| && outcome(j).Failed?
    ensures 5 * j < |ExecLog(command, app, DoExec(retries, outcome, 0))|
    ensures ExecLog(command, app, DoExec(retries, outcome, 0))[5 * j] == FailedHeader(retries - (j + 1), app)
  {
    var t := DoExec(retries, outcome, 0);
    assert t[j] == Attempt(retries - j, outcome(j));
    HeaderAfterFailures(command, app, t, j);
  }

  lemma HeaderAfterFailures(command: string, app: string, t: seq<Attempt>, j: nat)
    requires j < |t| && forall i :: 0 <= i <= j ==> t[i].result.Failed?
    ensures 5 * j < |ExecLog(command, app, t)|
    ensures ExecLog(command, app, t)[5 * j] == FailedHeader(t[j].retryLeft - 1, app)
  {
    var blocks := seq(|t|, i requires 0 <= i < |t| => AttemptLog(command, app, t[i]));
    FailedPrefixLength(command, app, t, blocks, j);
    ConcatIndex(blocks, j, 0);
    assert blocks[j][0] == FailedHeader(t[j].retryLeft - 1, app);
  }

  /** The blocks of `j` failed attempts take up `5 j` lines. */
  lemma FailedPrefixLength(command: string, app: string, t: seq<Attempt>, blocks: seq<seq<string>>, j: nat)
    requires j <= |t| == |blocks|
    requires forall i :: 0 <= i < |t| ==> blocks[i] == AttemptLog(command, app, t[i])
    requires forall i :: 0 <= i < j ==> t[i].result.Failed?
    ensures |Concat(blocks[..j])| == 5 * j
  {
    var before := blocks[..j];
    forall i | 0 <= i < j
      ensures |before[i]| == 5
    {
      assert before[i] == AttemptLog(command, app, t[i]);
    }
    FailedBlocksLength(before);
  }

  lemma {:induction false} FailedBlocksLength(blocks: seq<seq<string>>)
    requires forall i :: 0 <= i < |blocks| ==> |blocks[i]| == 5
    ensures |Concat(blocks)| == 5 * |blocks|
    decreases |blocks|
  {
    if |blocks| > 0 {
      FailedBlocksLength(blocks[..|blocks| - 1]);
    }
  }

  /** A call of `do_exec` issued by the dispatcher. */
  datatype Call = Call(command: string, app: string, retries: int)

  /** The plan's commands, app after app, each app's in order. */
  function PlanCommands(plan: Plan): seq<string>
  {
    if |plan| == 0 then [] else PlanCommands(plan[..|plan| - 1]) + plan[|plan| - 1].1
  }

  /** The app owning each of `PlanCommands(plan)`. */
  function PlanApps(plan: Plan): (r: seq<string>)
    ensures |r| == |PlanCommands(plan)|
  {
    if |plan| == 0 then [] else PlanApps(plan[..|plan| - 1]) + Repeat(plan[|plan| - 1].0, |plan[|plan| - 1].1|)
  }

  /** The calls one app's commands give rise to, one per command. */
  function AppCalls(app: string, commands: seq<string>, retries: int): seq<Call>
  {
    seq(|commands|, j requires 0 <= j < |commands| => Call(commands[j], app, retries))
  }

  /** The fan-out the dispatcher performs: one `do_exec` call per command of
      the plan, in plan order, each with its app and the configured retries.
      Apps with no command issue no call. */
  function FanOut(plan: Plan, retries: int): (calls: seq<Call>)
    ensures |calls| == |PlanCommands(plan)|
    ensures forall k :: 0 <= k < |calls| ==>
      calls[k] == Call(PlanCommands(plan)[k], PlanApps(plan)[k], retries)
  {
    if |plan| == 0 then []
    else
      var init := FanOut(plan[..|plan| - 1], retries);
      var (app, commands) := plan[|plan| - 1];
      init + AppCalls(app, commands, retries)
  }

  /** `run_commands` with the call the loop evidently means:
      `do_exec(commands_to_run[current_app][index], current_app, config.retries)`. */
  method RunCommands(plan: Plan, retries: int) returns (calls: seq<Call>)
    ensures calls == FanOut(plan, retries)
  {
    calls := [];
    var i := 0;
    while i < |plan|
      invariant 0 <= i <= |plan|
      invariant calls == FanOut(plan[..i], retries)
    {
      var (app, commands) := plan[i];
      var index := 0;
      while index < |commands|
        invariant 0 <= index <= |commands|
        invariant calls == FanOut(plan[..i], retries) + AppCalls(app, commands[..index], retries)
      {
        calls := calls + [Call(commands[index], app, retries)];
        index := index + 1;
        assert AppCalls(app, commands[..index], retries) ==
          AppCalls(app, commands[..index - 1], retries) + [Call(commands[index - 1], app, retries)];
      }
      assert commands[..index] == commands;
      assert plan[..i + 1][..i] == plan[..i];
      i := i + 1;
    }
    assert plan[..i] == plan;
  }

  /** A call of `do_exec` as line 141 actually makes it: the first argument
      is the app's whole command list. */
  datatype ListCall = ListCall(commands: seq<string>, app: string, retries: int)

  /** Line 141 as written: for every command of an app, one call that
      receives the app's entire list. */
  function FanOutAsWritten(plan: Plan, retries: int): (calls: seq<ListCall>)
    ensures |calls| == |PlanCommands(plan)|
    ensures forall k :: 0 <= k < |calls| ==> calls[k].app == PlanApps(plan)[k] && calls[k].retries == retries
  {
    if |plan| == 0 then []
    else
      var init := FanOutAsWritten(plan[..|plan| - 1], retries);
      var (app, commands) := plan[|plan| - 1];
      init + Repeat(ListCall(commands, app, retries), |commands|)
  }

  /** `run_commands` as written. */
  method RunCommandsAsWritten(plan: Plan, retries: int) returns (calls: seq<ListCall>)
    ensures calls == FanOutAsWritten(plan, retries)
  {
    calls := [];
    var i := 0;
    while i < |plan|
      invariant 0 <= i <= |plan|
      invariant calls == FanOutAsWritten(plan[..i], retries)
    {
      var (app, commands) := plan[i];
      var index := 0;
      while index < |commands|
        invariant 0 <= index <= |commands|
        invariant calls == FanOutAsWritten(plan[..i], retries) + Repeat(ListCall(commands, app, retries), index)
      {
        calls := calls + [ListCall(commands, app, retries)];
        index := index + 1;
      }
      assert plan[..i + 1][..i] == plan[..i];
      i := i + 1;
    }
    assert plan[..i] == plan;
  }

  /** Every as-written call carries the whole list of the app it is for;
      since app names are unique, that is the list of the one plan entry
      named by the call. */
  lemma {:induction false} AsWrittenPassesWholeList(plan: Plan, retries: int, k: nat)
    requires UniqueKeys(plan) && k < |FanOutAsWritten(plan, retries)|
    ensures exists i :: (0 <= i < |plan| && plan[i].0 == FanOutAsWritten(plan, retries)[k].app &&
                         FanOutAsWritten(plan, retries)[k].commands == plan[i].1)
    ensures forall i :: 0 <= i < |plan| && plan[i].0 == FanOutAsWritten(plan, retries)[k].app ==>
              FanOutAsWritten(plan, retries)[k].commands == plan[i].1
    decreases |plan|
  {
    var init := plan[..|plan| - 1];
    var n := |FanOutAsWritten(init, retries)|;
    if k < n {
      AsWrittenPassesWholeList(init, retries, k);
      var i :| 0 <= i < |init| && init[i].0 == FanOutAsWritten(init, retries)[k].app &&
        FanOutAsWritten(init, retries)[k].commands == init[i].1;
      assert plan[i] == init[i];
    } else {
      assert FanOutAsWritten(plan, retries)[k] == ListCall(plan[|plan| - 1].1, plan[|plan| - 1].0, retries);
    }
  }

  /** When no app has more than one command, the text of the list an
      as-written call passes is the command itself, so on Node releases
      whose `exec` turns an array into its text line 141 behaves as
      intended: the slip only shows with two or more commands. */
  lemma {:induction false} AsWrittenAgreesOnSingleCommands(plan: Plan, retries: int)
    requires forall i :: 0 <= i < |plan| ==> |plan[i].1| <= 1
    ensures |FanOutAsWritten(plan, retries)| == |FanOut(plan, retries)|
    ensures forall k :: 0 <= k < |FanOut(plan, retries)| ==>
      var w := FanOutAsWritten(plan, retries)[k];
      Call(JoinComma(w.commands), w.app, w.retries) == FanOut(plan, retries)[k]
    decreases |plan|
  {
    if |plan| > 0 {
      var init := plan[..|plan| - 1];
      var (app, commands) := plan[|plan| - 1];
      AsWrittenAgreesOnSingleCommands(init, retries);
      var w := FanOutAsWritten(plan, retries);
      var f := FanOut(plan, retries);
      var wi := FanOutAsWritten(init, retries);
      var fi := FanOut(init, retries);
      assert w == wi + Repeat(ListCall(commands, app, retries), |commands|);
      assert f == fi + AppCalls(app, commands, retries);
      forall k | 0 <= k < |f|
        ensures Call(JoinComma(w[k].commands), w[k].app, w[k].retries) == f[k]
      {
        if k < |fi| {
          assert w[k] == wi[k] && f[k] == fi[k];
        } else {
          assert |commands| == 1 && k == |fi|;
          assert w[k] == ListCall(commands, app, retries);
          assert f[k] == Call(commands[0], app, retries);
        }
      }
    }
  }

  /** Call for call, the code as written and the intended fan-out agree on
      the app and the retries, and the command the intended call runs is
      one of the list the as-written call receives. */
  lemma {:induction false} CorrectedCallsWithinAsWritten(plan: Plan, retries: int)
    ensures |FanOutAsWritten(plan, retries)| == |FanOut(plan, retries)|
    ensures forall k :: 0 <= k < |FanOut(plan, retries)| ==>
      var w := FanOutAsWritten(plan, retries)[k];
      var c := FanOut(plan, retries)[k];
      w.app == c.app && w.retries == c.retries && c.command in w.commands
    decreases |plan|
  {
    if |plan| > 0 {
      var init := plan[..|plan| - 1];
      var (app, commands) := plan[|plan| - 1];
      CorrectedCallsWithinAsWritten(init, retries);
      var w := FanOutAsWritten(plan, retries);
      var f := FanOut(plan, retries);
      var wi := FanOutAsWritten(init, retries);
      var fi := FanOut(init, retries);
      assert w == wi + Repeat(ListCall(commands, app, retries), |commands|);
      assert f == fi + AppCalls(app, commands, retries);
      forall k | 0 <= k < |f|
        ensures w[k].app == f[k].app && w[k].retries == f[k].retries && f[k].command in w[k].commands
      {
        if k < |fi| {
          assert w[k] == wi[k] && f[k] == fi[k];
        } else {
          assert w[k] == ListCall(commands, app, retries);
          assert f[k] == Call(commands[k - |fi|], app, retries);
        }
      }
    }
  }

  /** With two different commands for one app, line 141 issues two calls
      that each pass the list ["a", "b"], and never the second command on
      its own; on Node releases whose `exec` turns an array into its text
      the shell gets "a,b" twice. The intended fan-out issues "a" then "b". */
  lemma AsWrittenRunsJoinedList()
    ensures
      var plan: Plan := [("yourapp", ["a", "b"])];
      && FanOutAsWritten(plan, 5) == [ListCall(["a", "b"], "yourapp", 5), ListCall(["a", "b"], "yourapp", 5)]
      && JoinComma(["a", "b"]) == "a,b"
      && FanOut(plan, 5) == [Call("a", "yourapp", 5), Call("b", "yourapp", 5)]
  {
    var plan: Plan := [("yourapp", ["a", "b"])];
    assert plan[..0] == [];
    JoinCommaPair("a", "b");
    assert AppCalls("yourapp", ["a", "b"], 5) == [Call("a", "yourapp", 5), Call("b", "yourapp", 5)];
  }
}

=== FILE: matcher.dfy ===
/** `process_post`: maps a decoded webhook payload onto the commands to run
    for every configured app. */
module Matcher {
  import opened Results
  import opened Seqs
  import opened Payload

  /** `branches_to_track` of one app: (branch, `command_to_run`) pairs, in
      the order `for…in` enumerates them. */
  type Branches = seq<(string, string)>

  /** `config.apps`: (app slug, its tracked branches), in enumeration order. */
  type Apps = seq<(string, Branches)>

  /** `commands_to_run`: (app slug, commands), in insertion order. */
  type Plan = seq<(string, seq<string>)>

  /** Keys of a JavaScript object are unique. */
  predicate UniqueKeys<V>(kv: seq<(string, V)>)
  {
    forall i, j :: 0 <= i < j < |kv| ==> kv[i].0 != kv[j].0
  }

  const ParseFailureReason := "Cannot parse incoming hook post data as JSON!"
  const EmptyReason := "Incoming POST JSON is null or empty!"
  const MissingRepositoryReason :=
    "The incoming hook post data does not contain the needed repository information (e.g. slug name)!"

  function ParseFailureLog(error: string): string
  {
    "Cannot parse incoming POST data as JSON: " + error
  }

  const FoundPrefix := "FOUND "
  const FoundSuffix := " app in the POST data, which is tracked, so checking for matching branch..."
  const UpdatePrefix := "UPDATE for "
  const EmptyCommitsSuffix := " will be done to be sure because the commits array is empty in the received POST data."
  const MatchInfix :=
    " will be done because there was at least one commit received in the POST data which matches the trecked branch: "

  function FoundLog(app: string): string
  {
    FoundPrefix + app + FoundSuffix
  }

  function EmptyCommitsLog(app: string): string
  {
    UpdatePrefix + app + EmptyCommitsSuffix
  }

  function MatchLog(app: string, branch: string): string
  {
    UpdatePrefix + app + MatchInfix + branch
  }

  const NoUpdatePrefix := "NO UPDATE for "
  const NoUpdateSuffix := ", because there was no commits in the received POST data, which matches any tracked branch."

  function NoUpdateLog(app: string): string
  {
    NoUpdatePrefix + app + NoUpdateSuffix
  }

  /** A FOUND or UPDATE line: its first letter is not the `N` of a NO UPDATE line. */
  predicate ProgressLine(m: string)
  {
    |m| > 0 && m[0] != 'N'
  }

  /** A log made of FOUND and UPDATE lines only. */
  predicate ProgressLog(log: seq<string>)
  {
    forall k :: 0 <= k < |log| ==> ProgressLine(log[k])
  }

  lemma ProgressAppend(log: seq<string>, m: string)
    requires ProgressLine(m)
    ensures ProgressLog(log) ==> ProgressLog(log + [m])
  {
    assert forall k :: 0 <= k < |log| ==> (log + [m])[k] == log[k];
  }

  /** The FOUND and UPDATE lines of lines 91, 94 and 100. */
  lemma ProgressLines(app: string, branch: string)
    ensures ProgressLine(FoundLog(app))
    ensures ProgressLine(EmptyCommitsLog(app))
    ensures ProgressLine(MatchLog(app, branch))
  {
    assert FoundPrefix[0] == 'F' && UpdatePrefix[0] == 'U';
    assert FoundLog(app)[0] == FoundPrefix[0];
    assert EmptyCommitsLog(app)[0] == UpdatePrefix[0];
    assert MatchLog(app, branch)[0] == UpdatePrefix[0];
  }

  /** Distinct apps get distinct NO UPDATE lines. */
  lemma NoUpdateLogInjective(a: string, b: string)
    requires NoUpdateLog(a) == NoUpdateLog(b)
    ensures a == b
  {
    var p := |NoUpdatePrefix|;
    assert |a| == |b|;
    assert NoUpdateLog(a)[p..p + |a|] == a;
    assert NoUpdateLog(b)[p..p + |b|] == b;
  }

  /** Number of commits whose `branch` is `branch`. */
  function CountOn(commits: seq<Commit>, branch: string): nat
  {
    if |commits| == 0 then 0
    else CountOn(commits[..|commits| - 1], branch) + (if OnBranch(commits[|commits| - 1], branch) then 1 else 0)
  }

  /** The commands `process_post` promises for one app: nothing for an app
      other than the payload's; for the payload's app, one command per
      tracked branch when there are no commits, and otherwise each tracked
      branch's command once per commit on that branch, branch by branch in
      configuration order. */
  function ExpectedCommands(app: string, branches: Branches, post: Post): seq<string>
  {
    if Slug(post) != Present(app) then []
    else if CommitsEmpty(post) then seq(|branches|, i requires 0 <= i < |branches| => branches[i].1)
    else Concat(seq(|branches|, i requires 0 <= i < |branches| =>
                  Repeat(branches[i].1, CountOn(Commits(post), branches[i].0))))
  }

  /** The plan has one entry per configured app, in configuration order,
      each with the commands promised for it. */
  predicate PlanFor(plan: Plan, apps: Apps, post: Post)
  {
    && |plan| == |apps|
    && forall i :: 0 <= i < |plan| ==> plan[i] == (apps[i].0, ExpectedCommands(apps[i].0, apps[i].1, post))
  }

  /** State of one app's iteration: `commands_to_run[app]`, the log so far
      and the `update` flag. */
  datatype Step = Step(commands: seq<string>, log: seq<string>, updated: bool)

  /** Lines 98-104: push the branch's command once per commit on the branch. */
  function CommitLoop(app: string, branch: string, command: string, commits: seq<Commit>, s: Step): (r: Step)
    ensures r.commands == s.commands + Repeat(command, CountOn(commits, branch))
    ensures r.updated <==> s.updated || CountOn(commits, branch) > 0
    ensures ProgressLog(s.log) ==> ProgressLog(r.log)
    decreases |commits|
  {
    if |commits| == 0 then s
    else
      var r := CommitLoop(app, branch, command, commits[..|commits| - 1], s);
      if OnBranch(commits[|commits| - 1], branch) then
        ProgressLines(app, branch);
        ProgressAppend(r.log, MatchLog(app, branch));
        Step(r.commands + [command], r.log + [MatchLog(app, branch)], true)
      else r
  }

  /** The commands a branch contributes for a payload about its app: one
      when there are no commits, one per commit on it otherwise. */
  function BranchContribution(branch: string, command: string, post: Post): seq<string>
  {
    if CommitsEmpty(post) then [command] else Repeat(command, CountOn(Commits(post), branch))
  }

  /** The tracked branches' contributions, branch after branch. */
  function BranchCommands(branches: Branches, post: Post): seq<string>
  {
    if |branches| == 0 then []
    else
      var (branch, command) := branches[|branches| - 1];
      BranchCommands(branches[..|branches| - 1], post) + BranchContribution(branch, command, post)
  }

  /** The branch-by-branch contributions are what `ExpectedCommands`
      promises for the payload's app. */
  lemma {:induction false} BranchCommandsAsPromised(app: string, branches: Branches, post: Post)
    requires Slug(post) == Present(app)
    ensures BranchCommands(branches, post) == ExpectedCommands(app, branches, post)
    decreases |branches|
  {
    var n := |branches|;
    if n > 0 {
      var init := branches[..n - 1];
      BranchCommandsAsPromised(app, init, post);
      if CommitsEmpty(post) {
        assert seq(n, i requires 0 <= i < n => branches[i].1) ==
          seq(n - 1, i requires 0 <= i < n - 1 => init[i].1) + [branches[n - 1].1];
      } else {
        var parts := seq(n, i requires 0 <= i < n => Repeat(branches[i].1, CountOn(Commits(post), branches[i].0)));
        var initParts := seq(n - 1, i requires 0 <= i < n - 1 => Repeat(init[i].1, CountOn(Commits(post), init[i].0)));
        assert parts == initParts + [parts[n - 1]];
        ConcatAppend(initParts, parts[n - 1]);
      }
    }
  }

  /** Lines 92-106: every tracked branch, in order. */
  function BranchLoop(app: string, branches: Branches, post: Post, s: Step): (r: Step)
    ensures r.commands == s.commands + BranchCommands(branches, post)
    ensures r.updated <==> s.updated || |BranchCommands(branches, post)| > 0
    ensures ProgressLog(s.log) ==> ProgressLog(r.log)
    decreases |branches|
  {
    if |branches| == 0 then s
    else
      var r := BranchLoop(app, branches[..|branches| - 1], post, s);
      var (branch, command) := branches[|branches| - 1];
      if CommitsEmpty(post) then
        EmptyCommitsStep(app, command, r)
      else
        CommitLoop(app, branch, command, Commits(post), r)
  }

  /** Lines 93-96: with no commits, the branch's command is pushed unconditionally. */
  function EmptyCommitsStep(app: string, command: string, s: Step): (r: Step)
    ensures r.commands == s.commands + [command] && r.updated
    ensures ProgressLog(s.log) ==> ProgressLog(r.log)
  {
    ProgressLines(app, "");
    ProgressAppend(s.log, EmptyCommitsLog(app));
    Step(s.commands + [command], s.log + [EmptyCommitsLog(app)], true)
  }

  /** Lines 83-110: one app. The payload's app logs FOUND and then its
      branches; an app that got no command logs NO UPDATE. */
  function AppStep(app: string, branches: Branches, post: Post): (r: Step)
    ensures r.commands == ExpectedCommands(app, branches, post)
    ensures r.updated <==> |r.commands| > 0
    ensures NoUpdateLog(app) in r.log <==> |r.commands| == 0
    ensures forall a :: NoUpdateLog(a) in r.log ==> a == app
  {
    var found :=
      if Slug(post) == Present(app) then
        BranchCommandsAsPromised(app, branches, post);
        ProgressLines(app, "");
        BranchLoop(app, branches, post, Step([], [FoundLog(app)], false))
      else Step([], [], false);
    var r := if !found.updated then Step(found.commands, found.log + [NoUpdateLog(app)], false) else found;
    AppStepLog(app, found.log, r);
    r
  }

  lemma AppStepLog(app: string, progress: seq<string>, r: Step)
    requires ProgressLog(progress)
    requires r.log == progress || r.log == progress + [NoUpdateLog(app)]
    ensures NoUpdateLog(app) in r.log <==> r.log == progress + [NoUpdateLog(app)]
    ensures forall a :: NoUpdateLog(a) in r.log ==> a == app
  {
    NoProgressLineReadsNoUpdate(progress);
    if r.log == progress + [NoUpdateLog(app)] {
      forall a | NoUpdateLog(a) in r.log
        ensures a == app
      {
        assert NoUpdateLog(a) !in progress;
        NoUpdateLogInjective(a, app);
      }
    }
  }

  lemma NoProgressLineReadsNoUpdate(log: seq<string>)
    requires ProgressLog(log)
    ensures forall a :: NoUpdateLog(a) !in log
  {
    forall a
      ensures NoUpdateLog(a) !in log
    {
      assert NoUpdateLog(a)[0] == 'N';
    }
  }

  /** The result of `process_post`: the plan it resolves with or the reason
      it rejects with, and the lines it logs. */
  datatype Processed = Processed(outcome: Result<Plan>, log: seq<string>)

  /** Lines 82-111: every configured app, in order. The repository check
      sits inside the loop, so it rejects at the first app and not at all
      when there is no app. */
  function AppLoop(apps: Apps, post: Post): (r: Processed)
    ensures |apps| > 0 && RepositoryMissing(post) ==>
      r == Processed(Err(MissingRepositoryReason), [MissingRepositoryReason])
    ensures |apps| == 0 || !RepositoryMissing(post) ==> r.outcome.Ok? && PlanFor(r.outcome.value, apps, post)
    ensures r.outcome.Ok? ==> forall a :: NoUpdateLog(a) in r.log <==>
      exists i :: 0 <= i < |apps| && apps[i].0 == a && r.outcome.value[i].1 == []
    decreases |apps|
  {
    if |apps| == 0 then Processed(Ok([]), [])
    else
      var prev := AppLoop(apps[..|apps| - 1], post);
      if prev.outcome.Err? then prev
      else if RepositoryMissing(post) then
        Processed(Err(MissingRepositoryReason), prev.log + [MissingRepositoryReason])
      else
        var (app, branches) := apps[|apps| - 1];
        var step := AppStep(app, branches, post);
        var r := Processed(Ok(prev.outcome.value + [(app, step.commands)]), prev.log + step.log);
        AppLoopPlan(apps, post, prev.outcome.value, step.commands);
        AppLoopLog(apps, prev, step, r);
        r
  }

  lemma AppLoopPlan(apps: Apps, post: Post, prev: Plan, commands: seq<string>)
    requires |apps| > 0 && PlanFor(prev, apps[..|apps| - 1], post)
    requires commands == ExpectedCommands(apps[|apps| - 1].0, apps[|apps| - 1].1, post)
    ensures PlanFor(prev + [(apps[|apps| - 1].0, commands)], apps, post)
  {
  }

  lemma AppLoopLog(apps: Apps, prev: Processed, step: Step, r: Processed)
    requires |apps| > 0 && prev.outcome.Ok? && |prev.outcome.value| == |apps| - 1
    requires forall a :: NoUpdateLog(a) in prev.log <==>
      exists i :: 0 <= i < |apps| - 1 && apps[i].0 == a && prev.outcome.value[i].1 == []
    requires NoUpdateLog(apps[|apps| - 1].0) in step.log <==> |step.commands| == 0
    requires forall a :: NoUpdateLog(a) in step.log ==> a == apps[|apps| - 1].0
    requires r == Processed(Ok(prev.outcome.value + [(apps[|apps| - 1].0, step.commands)]), prev.log + step.log)
    ensures forall a :: NoUpdateLog(a) in r.log <==>
      exists i :: 0 <= i < |apps| && apps[i].0 == a && r.outcome.value[i].1 == []
  {
    var n := |apps| - 1;
    var plan := r.outcome.value;
    forall a
      ensures NoUpdateLog(a) in r.log <==> exists i :: 0 <= i < |apps| && apps[i].0 == a && plan[i].1 == []
    {
      if NoUpdateLog(a) in r.log {
        if NoUpdateLog(a) in prev.log {
          var i :| 0 <= i < n && apps[i].0 == a && prev.outcome.value[i].1 == [];
          assert plan[i] == prev.outcome.value[i];
        } else {
          assert plan[n].1 == [];
        }
      }
      if exists i :: 0 <= i < |apps| && apps[i].0 == a && plan[i].1 == [] {
        var i :| 0 <= i < |apps| && apps[i].0 == a && plan[i].1 == [];
        if i < n {
          assert plan[i] == prev.outcome.value[i];
        }
      }
    }
  }

  /** `process_post` on a decoded payload. */
  function ProcessPost(decoded: Decoded, apps: Apps): (r: Processed)
    ensures decoded.ParseFailure? ==>
      r == Processed(Err(ParseFailureReason), [ParseFailureLog(decoded.error)])
    ensures decoded.Parsed? && NullOrEmpty(decoded.post) ==>
      r == Processed(Err(EmptyReason), [EmptyReason])
    ensures decoded.Parsed? && !NullOrEmpty(decoded.post) && |apps| > 0 && RepositoryMissing(decoded.post) ==>
      r == Processed(Err(MissingRepositoryReason), [MissingRepositoryReason])
    ensures r.outcome.Ok? <==>
      decoded.Parsed? && !NullOrEmpty(decoded.post) && (|apps| == 0 || !RepositoryMissing(decoded.post))
    ensures r.outcome.Ok? ==> PlanFor(r.outcome.value, apps, decoded.post)
    ensures r.outcome.Ok? ==> forall a :: NoUpdateLog(a) in r.log <==>
      exists i :: 0 <= i < |apps| && apps[i].0 == a && r.outcome.value[i].1 == []
  {
    match decoded
    case ParseFailure(e) => Processed(Err(ParseFailureReason), [ParseFailureLog(e)])
    case Parsed(post) =>
      if NullOrEmpty(post) then Processed(Err(EmptyReason), [EmptyReason])
      else AppLoop(apps, post)
  }
}

/** Counting properties of the commands `process_post` schedules. */
module MatcherCounts {
  import opened Seqs
  import opened Payload
  import opened Matcher

  /** Whether a commit is on one of the tracked branches. */
  predicate Tracked(c: Commit, branches: Branches)
  {
    exists i :: 0 <= i < |branches| && OnBranch(c, branches[i].0)
  }

  /** Number of commits on some tracked branch. */
  function TrackedCount(commits: seq<Commit>, branches: Branches): nat
  {
    if |commits| == 0 then 0
    else TrackedCount(commits[..|commits| - 1], branches) + (if Tracked(commits[|commits| - 1], branches) then 1 else 0)
  }

  lemma {:induction false} CountOnConcat(a: seq<Commit>, b: seq<Commit>, branch: string)
    ensures CountOn(a + b, branch) == CountOn(a, branch) + CountOn(b, branch)
    decreases |b|
  {
    if |b| == 0 {
      assert a + b == a;
    } else {
      assert (a + b)[..|a + b| - 1] == a + b[..|b| - 1];
      CountOnConcat(a, b[..|b| - 1], branch);
    }
  }

  /** Adding a branch that no earlier branch shares adds exactly the commits on it. */
  lemma {:induction false} TrackedCountAddBranch(commits: seq<Commit>, branches: Branches)
    requires |branches| > 0 && UniqueKeys(branches)
    ensures TrackedCount(commits, branches) ==
      TrackedCount(commits, branches[..|branches| - 1]) + CountOn(commits, branches[|branches| - 1].0)
    decreases |commits|
  {
    if |commits| > 0 {
      var init := branches[..|branches| - 1];
      var last := branches[|branches| - 1];
      var c := commits[|commits| - 1];
      TrackedCountAddBranch(commits[..|commits| - 1], branches);
      if Tracked(c, init) {
        var i :| 0 <= i < |init| && OnBranch(c, init[i].0);
        assert branches[i] == init[i];
        assert !OnBranch(c, last.0);
        assert Tracked(c, branches);
      } else if OnBranch(c, last.0) {
        assert Tracked(c, branches);
      } else {
        forall i | 0 <= i < |branches|
          ensures !OnBranch(c, branches[i].0)
        {
          if i < |init| {
            assert init[i] == branches[i];
          }
        }
      }
    }
  }

  /** With commits present, the payload's app gets exactly one command per
      commit on a tracked branch: no deduplication, and commits on other
      branches add nothing. */
  lemma {:induction false} CommandCountIsTrackedCommitCount(branches: Branches, post: Post)
    requires UniqueKeys(branches) && !CommitsEmpty(post)
    ensures |BranchCommands(branches, post)| == TrackedCount(Commits(post), branches)
    decreases |branches|
  {
    if |branches| == 0 {
      assert TrackedCount(Commits(post), branches) == 0 by {
        NothingTrackedWithoutBranches(Commits(post), branches);
      }
    } else {
      var init := branches[..|branches| - 1];
      CommandCountIsTrackedCommitCount(init, post);
      TrackedCountAddBranch(Commits(post), branches);
    }
  }

  lemma {:induction false} NothingTrackedWithoutBranches(commits: seq<Commit>, branches: Branches)
    requires |branches| == 0
    ensures TrackedCount(commits, branches) == 0
    decreases |commits|
  {
    if |commits| > 0 {
      NothingTrackedWithoutBranches(commits[..|commits| - 1], branches);
    }
  }

  /** A tracked branch whose command no other tracked branch shares: that
      command is scheduled once per commit on the branch, so N commits on
      it give N identical entries. */
  lemma {:induction false} CommandMultiplicity(branches: Branches, post: Post, k: nat)
    requires !CommitsEmpty(post) && k < |branches|
    requires forall j :: 0 <= j < |branches| && j != k ==> branches[j].1 != branches[k].1
    ensures multiset(BranchCommands(branches, post))[branches[k].1] == CountOn(Commits(post), branches[k].0)
    decreases |branches|
  {
    var n := |branches|;
    var init := branches[..n - 1];
    var cmd := branches[k].1;
    var last := branches[n - 1];
    LastBranchCount(branches, post, cmd);
    if k == n - 1 {
      forall j | 0 <= j < |init|
        ensures init[j].1 != cmd
      {
        assert init[j] == branches[j];
      }
      AbsentCommand(init, post, cmd);
    } else {
      DistinctInPrefix(branches, k);
      CommandMultiplicity(init, post, k);
      assert init[k] == branches[k];
      assert last.1 != cmd;
    }
  }

  /** How often `cmd` occurs: in the branches before the last, plus the
      last branch's share. */
  lemma LastBranchCount(branches: Branches, post: Post, cmd: string)
    requires !CommitsEmpty(post) && |branches| > 0
    ensures
      var last := branches[|branches| - 1];
      multiset(BranchCommands(branches, post))[cmd] ==
        multiset(BranchCommands(branches[..|branches| - 1], post))[cmd]
        + (if last.1 == cmd then CountOn(Commits(post), last.0) else 0)
  {
    var last := branches[|branches| - 1];
    var tail := Repeat(last.1, CountOn(Commits(post), last.0));
    assert BranchCommands(branches, post) == BranchCommands(branches[..|branches| - 1], post) + tail;
    RepeatMultiplicity(last.1, CountOn(Commits(post), last.0), cmd);
  }

  lemma DistinctInPrefix(branches: Branches, k: nat)
    requires k < |branches| - 1
    requires forall j :: 0 <= j < |branches| && j != k ==> branches[j].1 != branches[k].1
    ensures var init := branches[..|branches| - 1];
      forall j :: 0 <= j < |init| && j != k ==> init[j].1 != init[k].1
  {
  }

  lemma RepeatMultiplicity(x: string, n: nat, y: string)
    ensures multiset(Repeat(x, n))[y] == if x == y then n else 0
  {
    if n > 0 {
      RepeatMultiplicity(x, n - 1, y);
    }
  }

  /** A command that no tracked branch names is never scheduled, with or
      without commits. */
  lemma {:induction false} AbsentCommand(branches: Branches, post: Post, cmd: string)
    requires forall j :: 0 <= j < |branches| ==> branches[j].1 != cmd
    ensures multiset(BranchCommands(branches, post))[cmd] == 0
    decreases |branches|
  {
    if |branches| > 0 {
      var init := branches[..|branches| - 1];
      if !CommitsEmpty(post) {
        RepeatMultiplicity(branches[|branches| - 1].1, CountOn(Commits(post), branches[|branches| - 1].0), cmd);
      }
      AbsentCommand(init, post, cmd);
    }
  }

  /** A commit on an untracked branch, inserted anywhere into a non-empty
      commits array, changes nothing the app is scheduled to run. */
  lemma UntrackedCommitIgnored(app: string, branches: Branches, repository: Field<Repository>,
                               commits: seq<Commit>, others: nat, k: nat, c: Commit)
    requires |commits| > 0 && k <= |commits|
    requires !Tracked(c, branches)
    ensures
      var before := Object(repository, Present(commits), others);
      var after := Object(repository, Present(commits[..k] + [c] + commits[k..]), others);
      ExpectedCommands(app, branches, after) == ExpectedCommands(app, branches, before)
  {
    var cs := commits[..k] + [c] + commits[k..];
    var before := Object(repository, Present(commits), others);
    var after := Object(repository, Present(cs), others);
    forall i | 0 <= i < |branches|
      ensures CountOn(cs, branches[i].0) == CountOn(commits, branches[i].0)
    {
      var b := branches[i].0;
      CountOnConcat(commits[..k] + [c], commits[k..], b);
      CountOnConcat(commits[..k], [c], b);
      CountOnConcat(commits[..k], commits[k..], b);
      assert commits[..k] + commits[k..] == commits;
      assert [c][..0] == [];
    }
    assert Commits(after) == cs && Commits(before) == commits;
    var pa := seq(|branches|, i requires 0 <= i < |branches| => Repeat(branches[i].1, CountOn(cs, branches[i].0)));
    var pb := seq(|branches|, i requires 0 <= i < |branches| => Repeat(branches[i].1, CountOn(commits, branches[i].0)));
    assert pa == pb;
  }

  /** A payload whose slug is no configured app schedules nothing for any app. */
  lemma UnknownSlugSchedulesNothing(apps: Apps, post: Post, plan: Plan)
    requires PlanFor(plan, apps, post)
    requires forall i :: 0 <= i < |apps| ==> Slug(post) != Present(apps[i].0)
    ensures forall i :: 0 <= i < |plan| ==> plan[i].1 == []
  {
  }

  /** With unique app slugs, at most one app gets commands. */
  lemma AtMostOneAppScheduled(apps: Apps, post: Post, plan: Plan, i: nat, j: nat)
    requires UniqueKeys(apps) && PlanFor(plan, apps, post)
    requires i < |plan| && j < |plan| && plan[i].1 != [] && plan[j].1 != []
    ensures i == j
  {
  }
}

=== FILE: payload.dfy ===
/** The decoded webhook payload, reduced to what the handler reads from it:
    `repository.slug` and the `branch` of each entry of `commits`. */
module Payload {

  /** A property of a JSON object: not there (`undefined`), `null`, or a value.
      Both `Absent` and `Null` compare loosely equal to `null`; only
      `Absent` is not one of the object's keys. */
  datatype Field<+T> = Absent | Null | Present(value: T)

  /** The `repository` object. A repository given as a string, number or
      boolean has no `slug` property, which is `Repository(Absent)`. */
  datatype Repository = Repository(slug: Field<string>)

  /** One element of `commits`. An element without a string `branch` never
      matches a tracked branch. */
  datatype Commit = Commit(branch: Field<string>)

  /** The value `JSON.parse` returns:
      - `JsonNull` for `null`;
      - `NonObject(keyCount)` for an array, string, number or boolean, with
        the number of keys `Object.keys` lists for it (array elements,
        string characters, none for numbers and booleans); such a value has
        no `repository` or `commits` property;
      - `Object` for an object, with its `repository` and `commits`
        properties and the number of its other keys. */
  datatype Post =
    | JsonNull
    | NonObject(keyCount: nat)
    | Object(repository: Field<Repository>, commits: Field<seq<Commit>>, otherKeys: nat)

  /** The outcome of decoding the request body: `querystring.parse` followed
      by `JSON.parse` of the `payload` field, which either throws (with the
      exception's text) or yields a value. */
  datatype Decoded = ParseFailure(error: string) | Parsed(post: Post)

  /** `Object.keys(post).length`. */
  function KeyCount(post: Post): nat
    requires !post.JsonNull?
  {
    match post
    case NonObject(n) => n
    case Object(repository, commits, others) =>
      (if repository.Absent? then 0 else 1) + (if commits.Absent? then 0 else 1) + others
  }

  /** `post == null || Object.keys(post).length === 0`. */
  predicate NullOrEmpty(post: Post)
  {
    post.JsonNull? || KeyCount(post) == 0
  }

  /** `post.repository == null || post.repository.slug == null`; the slug
      when it is there. */
  function Slug(post: Post): (r: Field<string>)
    ensures r.Present? <==> post.Object? && post.repository.Present? && post.repository.value.slug.Present?
  {
    if post.Object? && post.repository.Present? then post.repository.value.slug else Absent
  }

  predicate RepositoryMissing(post: Post)
  {
    !Slug(post).Present?
  }

  /** `post.commits == null || post.commits.length == 0`. */
  predicate CommitsEmpty(post: Post)
  {
    !(post.Object? && post.commits.Present? && |post.commits.value| > 0)
  }

  /** The commits array, empty when there is none. */
  function Commits(post: Post): seq<Commit>
  {
    if post.Object? && post.commits.Present? then post.commits.value else []
  }

  /** `post.commits[index].branch == branch_to_track`. */
  predicate OnBranch(c: Commit, branch: string)
  {
    c.branch == Present(branch)
  }
}

=== FILE: results.dfy ===
/** Failure-carrying values shared by the whole model. */
module Results {

  /** A value that may be missing: JavaScript's `undefined`, or `NaN` for a parse. */
  datatype Option<+T> = None | Some(value: T)

  /** A computation that either yields a value or fails with a message:
      a rejected promise, or a thrown `Error`. */
  datatype Result<+T> = Ok(value: T) | Err(reason: string)
}

=== FILE: seqs.dfy ===
/** Sequence helpers: flattening, repetition and counting. */
module Seqs {

  /** All the sequences of `ss`, one after the other. */
  function Concat<T>(ss: seq<seq<T>>): seq<T>
  {
    if |ss| == 0 then [] else Concat(ss[..|ss| - 1]) + ss[|ss| - 1]
  }

  /** `x`, `n` times. */
  function Repeat<T>(x: T, n: nat): (r: seq<T>)
    ensures |r| == n
    ensures forall i :: 0 <= i < n ==> r[i] == x
  {
    if n == 0 then [] else Repeat(x, n - 1) + [x]
  }

  lemma {:induction false} ConcatAppend<T>(ss: seq<seq<T>>, tail: seq<T>)
    ensures Concat(ss + [tail]) == Concat(ss) + tail
  {
    assert (ss + [tail])[..|ss|] == ss;
  }

  lemma {:induction false} ConcatSplit<T>(a: seq<seq<T>>, b: seq<seq<T>>)
    ensures Concat(a + b) == Concat(a) + Concat(b)
    decreases |b|
  {
    if |b| == 0 {
      assert a + b == a;
    } else {
      var b' := b[..|b| - 1];
      assert a + b == (a + b') + [b[|b| - 1]];
      ConcatAppend(a + b', b[|b| - 1]);
      ConcatSplit(a, b');
      ConcatAppend(b', b[|b| - 1]);
      assert b == b' + [b[|b| - 1]];
    }
  }

  /** Membership in a flattened sequence is membership in one of its parts. */
  lemma {:induction false} InConcat<T>(ss: seq<seq<T>>, x: T)
    ensures x in Concat(ss) <==> exists i :: 0 <= i < |ss| && x in ss[i]
  {
    if |ss| > 0 {
      var init := ss[..|ss| - 1];
      InConcat(init, x);
      if x in Concat(ss) {
        if x in Concat(init) {
          var i :| 0 <= i < |init| && x in init[i];
          assert ss[i] == init[i];
        } else {
          assert x in ss[|ss| - 1];
        }
      }
      if exists i :: 0 <= i < |ss| && x in ss[i] {
        var i :| 0 <= i < |ss| && x in ss[i];
        if i < |ss| - 1 {
          assert init[i] == ss[i];
        }
      }
    }
  }

  /** Element `i` of part `j` sits in the flattened sequence right after the parts before `j`. */
  lemma ConcatIndex<T>(ss: seq<seq<T>>, j: nat, i: nat)
    requires j < |ss| && i < |ss[j]|
    ensures |Concat(ss[..j])| + i < |Concat(ss)|
    ensures Concat(ss)[|Concat(ss[..j])| + i] == ss[j][i]
  {
    assert ss == ss[..j + 1] + ss[j + 1..];
    ConcatSplit(ss[..j + 1], ss[j + 1..]);
    assert ss[..j + 1] == ss[..j] + [ss[j]];
    ConcatAppend(ss[..j], ss[j]);
  }

  /** Flattening a sequence that starts with `x`: `x`, then the rest flattened. */
  lemma ConcatCons<T>(x: seq<T>, rest: seq<seq<T>>)
    ensures Concat([x] + rest) == x + Concat(rest)
  {
    ConcatSplit([x], rest);
    assert [x][..0] == [];
  }

  /** Two parts whose second is empty flatten to the first. */
  lemma TwoParts<T>(parts: seq<seq<T>>)
    requires |parts| == 2 && parts[1] == []
    ensures Concat(parts) == parts[0]
  {
    ConcatAppend([], parts[0]);
    assert [] + [parts[0]] == [parts[0]];
    ConcatAppend([parts[0]], []);
    assert parts == [parts[0]] + [[]];
  }
}

=== FILE: server.dfy ===
/** The request handler of `http.createServer`: its status codes, and the
    hand-off from an accepted payload to the fan-out of commands. The
    transport itself is not modelled; a request is its method and the
    chunks of its body. */
module Server {
  import opened Results
  import opened Seqs
  import opened Payload
  import opened Matcher
  import opened Executor

  /** `body.length > 1e6` ends the request with 413. */
  const MaxBody := 1000000

  const MethodNotAllowed := "Method Not Allowed. Only POST is accepted"
  const TooLarge := "Request Entity Too Large"

  /** Lines 148-158: the body grows chunk by chunk and the request is cut
      off (`None`) as soon as it exceeds `MaxBody`. Because the body only
      grows, that happens exactly when the whole body would exceed it. */
  function Receive(body: string, chunks: seq<string>): (r: Option<string>)
    ensures |body| <= MaxBody ==> (r.Some? <==> |body + Concat(chunks)| <= MaxBody)
    ensures r.Some? ==> r.value == body + Concat(chunks)
    decreases |chunks|
  {
    if |chunks| == 0 then Some(body)
    else
      var grown := body + chunks[0];
      ConcatCons(chunks[0], chunks[1..]);
      assert chunks == [chunks[0]] + chunks[1..];
      if |grown| > MaxBody then None else Receive(grown, chunks[1..])
  }

  /** What the client sees, the `do_exec` calls started in the background,
      and the lines `process_post` logs. */
  datatype Response = Response(status: int, body: string, calls: seq<Call>, log: seq<string>)

  /** One request: 405 for anything but POST, 413 for a body over the
      limit, otherwise 200 "OK" with the plan fanned out (one call per
      command, as intended; each lines up with the whole-list call line 141
      makes) when `process_post` resolves and 500 with the rejection reason when it rejects. The
      response never waits for, or depends on, how the commands end. */
  function Handle(verb: string, chunks: seq<string>, decode: string -> Decoded, apps: Apps, retries: int): (r: Response)
    ensures verb != "POST" ==> r == Response(405, MethodNotAllowed, [], [])
    ensures verb == "POST" && |Concat(chunks)| > MaxBody ==> r == Response(413, TooLarge, [], [])
    ensures r.status in {200, 405, 413, 500}
    ensures r.status == 200 ==> r.body == "OK"
    ensures r.status == 500 || r.status == 200 ==>
      verb == "POST" && |Concat(chunks)| <= MaxBody &&
      var p := ProcessPost(decode(Concat(chunks)), apps);
      && r.log == p.log
      && (r.status == 200 <==> p.outcome.Ok?)
      && (p.outcome.Ok? ==> r.calls == FanOut(p.outcome.value, retries))
      && (p.outcome.Ok? ==>
            var written := FanOutAsWritten(p.outcome.value, retries);
            && |written| == |r.calls|
            && forall k :: 0 <= k < |r.calls| ==>
                 written[k].app == r.calls[k].app && r.calls[k].command in written[k].commands)
      && (p.outcome.Err? ==> r.body == p.outcome.reason && r.calls == [])
    ensures r.calls != [] ==> r.status == 200
  {
    if verb != "POST" then Response(405, MethodNotAllowed, [], [])
    else
      assert "" + Concat(chunks) == Concat(chunks);
      match Receive("", chunks)
      case None => Response(413, TooLarge, [], [])
      case Some(body) =>
        var p := ProcessPost(decode(body), apps);
        match p.outcome
        case Ok(plan) =>
          CorrectedCallsWithinAsWritten(plan, retries);
          Response(200, "OK", FanOut(plan, retries), p.log)
        case Err(reason) => Response(500, reason, [], p.log)
  }

  /** An accepted request starts one `do_exec` call per scheduled command,
      for the payload's app only, each with the configured retries. */
  lemma AcceptedRunsPlan(verb: string, chunks: seq<string>, decode: string -> Decoded, apps: Apps, retries: int)
    requires Handle(verb, chunks, decode, apps, retries).status == 200
    ensures
      var r := Handle(verb, chunks, decode, apps, retries);
      var post := decode(Concat(chunks)).post;
      && decode(Concat(chunks)).Parsed?
      && forall k :: 0 <= k < |r.calls| ==> r.calls[k].retries == retries && Slug(post) == Present(r.calls[k].app)
  {
    var r := Handle(verb, chunks, decode, apps, retries);
    var p := ProcessPost(decode(Concat(chunks)), apps);
    var plan := p.outcome.value;
    forall k | 0 <= k < |r.calls|
      ensures Slug(decode(Concat(chunks)).post) == Present(r.calls[k].app)
    {
      ScheduledAppsMatchSlug(plan, apps, decode(Concat(chunks)).post, k);
    }
  }

  /** Every scheduled command belongs to an app whose slug is the payload's. */
  lemma {:induction false} ScheduledAppsMatchSlug(plan: Plan, apps: Apps, post: Post, k: nat)
    requires PlanFor(plan, apps, post) && k < |PlanApps(plan)|
    ensures Slug(post) == Present(PlanApps(plan)[k])
    decreases |plan|
  {
    var init := plan[..|plan| - 1];
    var last := plan[|plan| - 1];
    assert PlanFor(init, apps[..|apps| - 1], post);
    if k < |PlanApps(init)| {
      ScheduledAppsMatchSlug(init, apps[..|apps| - 1], post, k);
      assert PlanApps(plan)[k] == PlanApps(init)[k];
    } else {
      assert last.1 != [];
      assert PlanApps(plan)[k] == last.0;
    }
  }
}

=== FILE: strings.dfy ===
/** The JavaScript string operations the handler relies on: `parseInt` with
    no radix, number-to-text conversion in log lines, `toUpperCase` on
    variable names and the text form of an array (`Array.prototype.toString`). */
module Strings {
  import opened Results

  /** The two bases `parseInt` reads without an explicit radix. */
  datatype Radix = Decimal | Hexadecimal

  function Base(radix: Radix): nat
  {
    if radix == Decimal then 10 else 16
  }

  /** Value of `c` as a digit of `radix`, or -1 when it is not one. */
  function DigitValue(c: char, radix: Radix): int
  {
    var v :=
      if '0' <= c <= '9' then c as int - '0' as int
      else if 'a' <= c <= 'z' then c as int - 'a' as int + 10
      else if 'A' <= c <= 'Z' then c as int - 'A' as int + 10
      else 36;
    if v < Base(radix) then v else -1
  }

  predicate IsDigitOf(c: char, radix: Radix)
  {
    DigitValue(c, radix) >= 0
  }

  /** The characters `parseInt` skips at the front: white space and line
      terminators of section 7.2 and 7.3 of ECMA-262. */
  predicate IsJsWhiteSpace(c: char)
  {
    || c == '\t' || c == '\U{B}' || c == '\U{C}' || c == ' ' || c == '\U{A0}' || c == '\U{FEFF}'
    || c == '\U{1680}' || ('\U{2000}' <= c <= '\U{200A}') || c == '\U{202F}' || c == '\U{205F}'
    || c == '\U{3000}' || c == '\n' || c == '\r' || c == '\U{2028}' || c == '\U{2029}'
  }

  /** `s` without its leading white space. */
  function TrimStart(s: string): string
  {
    if |s| > 0 && IsJsWhiteSpace(s[0]) then TrimStart(s[1..]) else s
  }

  /** Length of the longest prefix of `s` made of digits of `radix`. */
  function DigitRun(s: string, radix: Radix): (n: nat)
    ensures n <= |s|
    ensures forall i :: 0 <= i < n ==> IsDigitOf(s[i], radix)
  {
    if |s| > 0 && IsDigitOf(s[0], radix) then 1 + DigitRun(s[1..], radix) else 0
  }

  /** The number the digits `ds` denote in `radix`, most significant first. */
  function ValueOf(ds: string, radix: Radix): nat
    requires forall i :: 0 <= i < |ds| ==> IsDigitOf(ds[i], radix)
  {
    if |ds| == 0 then 0
    else
      assert IsDigitOf(ds[|ds| - 1], radix);
      var high := ValueOf(ds[..|ds| - 1], radix);
      (if radix == Decimal then high * 10 else high * 16) + DigitValue(ds[|ds| - 1], radix)
  }

  /** The text after an optional leading sign. */
  function Unsigned(t: string): string
  {
    if |t| > 0 && (t[0] == '-' || t[0] == '+') then t[1..] else t
  }

  /** Whether unsigned text starts a hexadecimal literal. */
  predicate IsHexStart(u: string)
  {
    |u| >= 2 && u[0] == '0' && (u[1] == 'x' || u[1] == 'X')
  }

  /** The magnitude `parseInt` reads from unsigned text: base 16 after
      `0x`/`0X`, base 10 otherwise; `None` when no digit follows. */
  function ParseUnsigned(u: string): Option<nat>
  {
    var radix := if IsHexStart(u) then Hexadecimal else Decimal;
    var w := if IsHexStart(u) then u[2..] else u;
    var n := DigitRun(w, radix);
    if n == 0 then None else Some(ValueOf(w[..n], radix))
  }

  /** JavaScript `parseInt(s)`: skip white space, take an optional sign, then
      an optional `0x`/`0X` that switches to base 16, then the longest run
      of digits. No digit at all gives `NaN`, here `None`. A negative zero is
      the number zero. */
  function ParseInt(s: string): Option<int>
  {
    var t := TrimStart(s);
    match ParseUnsigned(Unsigned(t))
    case None => None
    case Some(m) =>
      var v: int := m;
      Some(if |t| > 0 && t[0] == '-' then -v else v)
  }

  function DecimalDigit(d: nat): (c: char)
    requires d < 10
    ensures IsDigitOf(c, Decimal) && DigitValue(c, Decimal) == d
  {
    ('0' as int + d) as char
  }

  /** Decimal text of a natural number, without leading zeros. */
  function NatToString(n: nat): (s: string)
    ensures |s| > 0
    ensures forall i :: 0 <= i < |s| ==> IsDigitOf(s[i], Decimal)
    ensures |s| > 1 ==> s[0] != '0'
  {
    if n < 10 then [DecimalDigit(n)] else NatToString(n / 10) + [DecimalDigit(n % 10)]
  }

  /** Decimal text of an integer, as `"" + n` gives it for a safe integer. */
  function IntToString(n: int): string
  {
    if n < 0 then "-" + NatToString(-n) else NatToString(n)
  }

  lemma {:induction false} NatToStringValue(n: nat)
    ensures ValueOf(NatToString(n), Decimal) == n
  {
    if n >= 10 {
      var s := NatToString(n);
      assert s[..|s| - 1] == NatToString(n / 10);
      NatToStringValue(n / 10);
    }
  }

  /** Reading back the decimal text of an integer gives the integer. */
  lemma ParseIntOfIntToString(n: int)
    ensures ParseInt(IntToString(n)) == Some(n)
  {
    ParseIntDigitsThenTail(n, "");
    assert IntToString(n) + "" == IntToString(n);
  }

  /** `parseInt` stops at the first character that is not a digit, so text
      after a number does not change its value ("12abc" reads as 12). The one
      exception is a lone `0` followed by `x` or `X`, which starts a
      hexadecimal literal. */
  lemma ParseIntDigitsThenTail(n: int, tail: string)
    requires |tail| > 0 ==> !IsDigitOf(tail[0], Decimal)
    requires |tail| > 0 && n == 0 ==> tail[0] != 'x' && tail[0] != 'X'
    ensures ParseInt(IntToString(n) + tail) == Some(n)
  {
    var m: nat := if n < 0 then -n else n;
    ParseUnsignedDigitsThenTail(m, tail);
    if n < 0 {
      NegativeText(m, tail);
    } else {
      NonNegativeText(m, tail);
    }
  }

  lemma NegativeText(m: nat, tail: string)
    requires ParseUnsigned(NatToString(m) + tail) == Some(m)
    ensures ParseInt("-" + NatToString(m) + tail) == Some(-(m as int))
  {
    var s := "-" + NatToString(m) + tail;
    assert s[1..] == NatToString(m) + tail;
    NegativeParts(s, m);
  }

  lemma NonNegativeText(m: nat, tail: string)
    requires ParseUnsigned(NatToString(m) + tail) == Some(m)
    ensures ParseInt(NatToString(m) + tail) == Some(m)
  {
    var s := NatToString(m) + tail;
    assert IsDigitOf(s[0], Decimal);
    NonNegativeParts(s, m);
  }

  lemma NegativeParts(s: string, m: nat)
    requires |s| > 0 && s[0] == '-'
    requires ParseUnsigned(s[1..]) == Some(m)
    ensures ParseInt(s) == Some(-(m as int))
  {
  }

  lemma NonNegativeParts(s: string, m: nat)
    requires |s| > 0 && '0' <= s[0] <= '9'
    requires ParseUnsigned(s) == Some(m)
    ensures ParseInt(s) == Some(m)
  {
    assert !IsJsWhiteSpace(s[0]);
    assert TrimStart(s) == s;
    assert Unsigned(s) == s;
  }

  lemma ParseUnsignedDigitsThenTail(m: nat, tail: string)
    requires |tail| > 0 ==> !IsDigitOf(tail[0], Decimal)
    requires |tail| > 0 && m == 0 ==> tail[0] != 'x' && tail[0] != 'X'
    ensures ParseUnsigned(NatToString(m) + tail) == Some(m)
  {
    var ds := NatToString(m);
    var u := ds + tail;
    assert !IsHexStart(u) by {
      if |u| >= 2 && u[0] == '0' && |ds| == 1 {
        assert m < 10;
      }
    }
    DigitRunOfDigits(ds, tail);
    assert u[..|ds|] == ds;
    NatToStringValue(m);
  }

  lemma {:induction false} DigitRunOfDigits(ds: string, tail: string)
    requires forall i :: 0 <= i < |ds| ==> IsDigitOf(ds[i], Decimal)
    requires |tail| > 0 ==> !IsDigitOf(tail[0], Decimal)
    ensures DigitRun(ds + tail, Decimal) == |ds|
  {
    if |ds| > 0 {
      assert (ds + tail)[1..] == ds[1..] + tail;
      DigitRunOfDigits(ds[1..], tail);
    } else {
      assert ds + tail == tail;
    }
  }

  /** ASCII upper-casing, as `toUpperCase` does for the variable names used. */
  function ToUpper(s: string): (t: string)
    ensures |t| == |s|
  {
    seq(|s|, i requires 0 <= i < |s| =>
      if 'a' <= s[i] <= 'z' then (s[i] as int - 'a' as int + 'A' as int) as char else s[i])
  }

  /** Text of an array of strings: its elements separated by commas
      (`Array.prototype.toString`). */
  function JoinComma(xs: seq<string>): string
  {
    if |xs| == 0 then ""
    else if |xs| == 1 then xs[0]
    else JoinComma(xs[..|xs| - 1]) + "," + xs[|xs| - 1]
  }

  /** The text of a two-element array contains a comma between the two. */
  lemma JoinCommaPair(a: string, b: string)
    ensures JoinComma([a, b]) == a + "," + b
    ensures |JoinComma([a, b])| > |b|
  {
    assert [a, b][..1] == [a];
  }
}
